=== FILE: README.md ===
# KVM host monitor: guest-memory probe, exit dispatch and real-mode setup

A Dafny model of the host side of a small KVM-based virtual machine monitor.
It covers three parts.

- **Guest-memory probe.** vmm.c's `probe_and_compare_guest_memory` resolves a
  guest-physical address against RAM or against the MMIO region directly above
  it. It reads up to eight bytes as a zero-extended little-endian value and
  compares that value with an expected one.
- **VM-exit dispatch loop.** This is the loop in vmm.c's `main`, with
  `handle_io` and `handle_mmio`, followed by the three final checks on the
  guest's state.
- **Real-mode bootstrap.** This covers vcpu.c's `create_vcpu` and
  `setup_real_mode`. The model has the register transformation itself and the
  order of the GET/SET requests around it.

Every hypervisor request is an oracle: a parameter standing for KVM's answer.
The requests modelled this way are:

- opening `/dev/kvm` and the API-version query;
- `KVM_CREATE_VCPU`, `KVM_GET_VCPU_MMAP_SIZE` and `mmap`;
- `KVM_GET/SET_SREGS` and `KVM_GET/SET_REGS`;
- each `KVM_RUN`.

The run loop is driven along a finite sequence of `KVM_RUN` answers. The
guest's registers and memory at the time it halts are also inputs.

Modules, one per file:

- `Words` (`words.dfy`): C unsigned widths, the `int` to `uint64_t`
  conversion, unsigned subtraction, and little-endian decoding and encoding.
- `Host` (`host.dfy`): `Option`, for a request that may be rejected, and
  the fatal exit status.
- `GuestMemory` (`guest_memory.dfy`): the probe.
- `VcpuState` (`vcpu_state.dfy`): `kvm_sregs`, `kvm_regs` and the real-mode
  transformation.
- `VcpuSetup` (`vcpu_setup.dfy`): `create_vcpu` and the `setup_real_mode`
  request sequence.
- `ExitDispatch` (`exit_dispatch.dfy`): the run loop.
- `Vmm` (`vmm.dfy`): the start of `main` and its final checks.

Constants come from these places:

- KVM exit reasons (IO 2, HLT 5, MMIO 6, FAIL_ENTRY 9), the OUT direction (1)
  and the API version (12) follow the Linux KVM userspace header.
- CR0.PE is bit 0 (Intel SDM Vol. 3A, section 2.5, Control Registers).
- EFER.LME is bit 8 and EFER.LMA is bit 10 (section 2.2.1, Extended Feature
  Enable Register).
- vm.c installs one memory slot, RAM of `VM_MEMORY_SIZE` bytes at
  guest-physical address 0, and creates no MMIO region. The MMIO region
  directly above RAM comes only from the probe in vmm.c, which reads an
  address past RAM at offset `gpa - mem_size` in `mmio_mem`.
  `GuestMemory.PhysicalView` lays the two buffers out that way.

Notes on the code:

- `handle_io` does not check the port number. It echoes the byte at
  `data_offset` for every OUT exit.
- `handle_mmio` neither validates nor forwards anything.
- The RAM sentinel is 4 bytes at 0x400. A third check follows it: the byte at
  0x180000 must be `'x'`.
- A failed check makes `main` return 0.
- A probe outside guest memory calls `exit(0)`.
- FAIL_ENTRY is always fatal. It leaves the `switch` and reaches the
  unexpected-exit `exit(1)`.
- `setup_real_mode` leaves EFER untouched. See the findings below.

`create_vcpu` stores the `int` result of `KVM_GET_VCPU_MMAP_SIZE` in a
`uint64_t`. A rejected query (-1) therefore passes the zero check and reaches
`mmap` as a length of 2^64 - 1 (see the findings below).

## Model

| member | source | states |
|---|---|---|
| `Words.AsU64` | tools/labs/skels/assignments/7-kvm-vmm/skel/vcpu.c:14 | an `int` stored in a `uint64_t` is itself when non-negative and is 2^64 added to it when negative |
| `Words.SubU64` | tools/labs/skels/assignments/7-kvm-vmm/skel/vmm.c:67 | unsigned `gpa - mem_size` is the true difference when `gpa >= mem_size` and wraps by 2^64 otherwise |
| `Words.LeValue` | tools/labs/skels/assignments/7-kvm-vmm/skel/vmm.c:66-69 | the little-endian value of `n` copied bytes is below 256^n, so at most 8 bytes always fit in `memval` |
| `Words.LeValueOfLeBytes` | tools/labs/skels/assignments/7-kvm-vmm/skel/vmm.c:66-69 | decoding the n-byte little-endian encoding of any value below 256^n gives back that value |
| `Words.LeBytesOfLeValue` | tools/labs/skels/assignments/7-kvm-vmm/skel/vmm.c:66-69 | re-encoding a decoded byte string at its own width gives back the same bytes |
| `Words.LeValueInjective` | tools/labs/skels/assignments/7-kvm-vmm/skel/vmm.c:76 | two byte strings of equal length compare equal as values exactly when they are the same bytes |
| `Words.LeValueZeroExtend` | tools/labs/skels/assignments/7-kvm-vmm/skel/vmm.c:60-66 | bytes copied over the low end of a zeroed 8-byte variable read back as their zero-extension |
| `GuestMemory.Resolve` | tools/labs/skels/assignments/7-kvm-vmm/skel/vmm.c:64-74 | RAM at offset `gpa` iff `gpa < mem_size`; MMIO at offset `gpa - mem_size` iff `mem_size <= gpa < mem_size + mmio_mem_size` (the unsigned guard cannot wrap there); outside otherwise |
| `GuestMemory.Memval` | tools/labs/skels/assignments/7-kvm-vmm/skel/vmm.c:60-69 | the compared value is the zero-extended little-endian decoding of the `data_size` copied bytes |
| `GuestMemory.Compare` | tools/labs/skels/assignments/7-kvm-vmm/skel/vmm.c:76-83 | returns 0 (`Equal`) iff the decoded value equals `what`, and otherwise 1 (`Differs`) carrying the value found |
| `GuestMemory.Probe` | tools/labs/skels/assignments/7-kvm-vmm/skel/vmm.c:58-84 | exits with 0 and makes no comparison iff the access is not inside one region; otherwise `Equal` iff the little-endian value at `gpa` in guest-physical memory (RAM, then MMIO) equals `what`, and `Differs` reports that value. This is the corrected probe of Findings row 1; the source exits only for an address beyond both regions (see `GuestMemory.ProbeAsWritten`) |
| `GuestMemory.ProbeAsWritten` | tools/labs/skels/assignments/7-kvm-vmm/skel/vmm.c:64-83 | the source's check rejects an address only when it lies beyond both regions, whatever the access width; an address in RAM compares the `data_size` bytes from `gpa` in the RAM buffer followed by the host bytes past it, and an address in the MMIO window those from `gpa - mem_size` in the MMIO buffer followed by the host bytes past it; `Differs` carries that value |
| `GuestMemory.AsWrittenAgreesWhenFits` | tools/labs/skels/assignments/7-kvm-vmm/skel/vmm.c:64-69 | whenever the access lies inside one region, the source's probe and `Probe` give the same outcome |
| `GuestMemory.StraddlingProbeReadsHostMemory` | tools/labs/skels/assignments/7-kvm-vmm/skel/vmm.c:64-69 | a 4-byte probe of the last RAM byte passes the source's check and its verdict depends on host bytes past the RAM buffer; `Probe` reports it outside |
| `VcpuState.ClearBits` | tools/labs/skels/assignments/7-kvm-vmm/skel/vcpu.c:52-56 | `x &= ~mask` leaves every mask bit clear and every other bit as it was |
| `VcpuState.RealModeSregs` | tools/labs/skels/assignments/7-kvm-vmm/skel/vcpu.c:52-66 | CR0.PE clear, CR0 bits 8 and 10 clear, other CR0 bits kept, EFER unchanged, CR3 = 0, CS selector/base 0 and limit 0xffff, GDT base 0 and limit 0xffff; every other field, down to segment and GDT padding, keeps the value read |
| `VcpuState.RealModeRegs` | tools/labs/skels/assignments/7-kvm-vmm/skel/vcpu.c:68-69 | RFLAGS holds only reserved bit 1 (IF clear) and RIP = 0; every other register keeps the value read |
| `VcpuState.RealModeSregsIntended` | tools/labs/skels/assignments/7-kvm-vmm/skel/vcpu.c:52-57 | corrected transform: only CR0.PE cleared in CR0, EFER.LME and EFER.LMA cleared with other EFER bits kept, other fields as in `RealModeSregs` |
| `VcpuState.RealModeKeepsLongMode` | tools/labs/skels/assignments/7-kvm-vmm/skel/vcpu.c:56 | for any state with EFER.LME or LMA set, the source's transform keeps both EFER bits as they were while clearing CR0.PE; the corrected one clears them |
| `VcpuState.RealModeIdempotent` | tools/labs/skels/assignments/7-kvm-vmm/skel/vcpu.c:52-69 | applying the register transformation twice gives the same state as applying it once |
| `VcpuSetup.MmapLength` | tools/labs/skels/assignments/7-kvm-vmm/skel/vcpu.c:14-25 | mmap is reached iff the vCPU fd is non-negative and the size answer is non-zero; its length is the answer itself when positive and the answer plus 2^64 when negative |
| `VcpuSetup.CreateVcpu` | tools/labs/skels/assignments/7-kvm-vmm/skel/vcpu.c:4-31 | succeeds iff the vCPU fd is non-negative, the mmap size is non-zero and mmap succeeds; the first failing check, in that order, names the fatal error; the run record has the length mmap was asked for |
| `VcpuSetup.RejectedSizeQueryReachesMmap` | tools/labs/skels/assignments/7-kvm-vmm/skel/vcpu.c:14-18 | a -1 from the size query is not caught by the zero check: mmap is asked for 2^64 - 1 bytes, and only a failing mmap stops the process |
| `VcpuSetup.CreateVcpuIntended` | tools/labs/skels/assignments/7-kvm-vmm/skel/vcpu.c:4-31 | corrected check: succeeds iff the fd is non-negative, the size answer is positive and mmap succeeds; a negative or zero answer is fatal before mmap; the run record has exactly the answered size |
| `VcpuSetup.CreateVcpuIntendedAgrees` | tools/labs/skels/assignments/7-kvm-vmm/skel/vcpu.c:14-18 | the corrected and the source's `create_vcpu` agree on every non-negative size answer; on a negative one the corrected version stops at the size check, while the source's succeeds whenever mmap does |
| `VcpuSetup.RealModeBootstrap` | tools/labs/skels/assignments/7-kvm-vmm/skel/vcpu.c:33-82 | the requests issued are a non-empty prefix of GET sregs, GET regs, SET sregs (the transformed sregs), SET regs (the transformed regs); every request but the last was accepted and the last is rejected iff setup fails, with that request's error; success iff all four are accepted, leaving the transformed state; regs are committed only after sregs |
| `ExitDispatch.HandleIo` | tools/labs/skels/assignments/7-kvm-vmm/skel/vmm.c:41-56 | emits exactly the byte at `data_offset` iff the direction is OUT, and nothing otherwise |
| `ExitDispatch.HandleIoIgnoresPort` | tools/labs/skels/assignments/7-kvm-vmm/skel/vmm.c:45-53 | the emitted bytes do not depend on the port, size or count of the exit |
| `ExitDispatch.Step` | tools/labs/skels/assignments/7-kvm-vmm/skel/vmm.c:136-167 | one KVM_RUN per step; the loop continues iff the run succeeded with an IO or MMIO exit (MMIO changes nothing); check phase iff HLT; fatal on a non-zero return code (recording the code), on FAIL_ENTRY (recording the hardware entry-failure reason) and on any other reason (recording the raw exit reason); output grows by the data byte exactly on OUT exits |
| `ExitDispatch.Run` | tools/labs/skels/assignments/7-kvm-vmm/skel/vmm.c:133-168 | a loop that has stopped stays as it is; a running loop adds to the output exactly the data of the OUT exits before the first stopping answer; it consumes the leading IO/MMIO answers, echoing exactly their OUT bytes with one KVM_RUN each, and ends as the first other answer dictates; with none it is still running after one KVM_RUN per answer |
| `ExitDispatch.FirstStop` | tools/labs/skels/assignments/7-kvm-vmm/skel/vmm.c:133-168 | the index of the first answer after which the loop does not request another exit |
| `ExitDispatch.SettleStep` | tools/labs/skels/assignments/7-kvm-vmm/skel/vmm.c:151-162 | handling one IO or MMIO exit and going round the loop again does not change where the loop ends |
| `ExitDispatch.SettleOutput` | tools/labs/skels/assignments/7-kvm-vmm/skel/vmm.c:133-168 | where a running loop settles, it has added to the output exactly the data of the OUT exits before the first stopping answer |
| `ExitDispatch.ReachesCheck` | tools/labs/skels/assignments/7-kvm-vmm/skel/vmm.c:145-146 | the loop reaches the check phase iff its first stopping answer is a successful HLT exit |
| `ExitDispatch.EntryFailureIsFatal` | tools/labs/skels/assignments/7-kvm-vmm/skel/vmm.c:147-167 | when the first stopping answer is FAIL_ENTRY, the loop ends fatally |
| `ExitDispatch.EchoThenHalt` | tools/labs/skels/assignments/7-kvm-vmm/skel/vmm.c:133-168 | a guest that writes any byte string with `out` on any port and halts is echoed exactly that string and reaches the check after one run per byte plus one |
| `Vmm.OpenKvm` | tools/labs/skels/assignments/7-kvm-vmm/skel/vmm.c:96-106 | `main` goes on iff opening /dev/kvm gave a non-negative fd and the API version is 12; a failed open is reported as such whatever the version; after a successful open a wrong version is reported as a mismatch carrying the version answered |
| `Vmm.OpenFailureIgnoresVersion` | tools/labs/skels/assignments/7-kvm-vmm/skel/vmm.c:96-100 | when the open fails, `main` stops before asking for the API version, so no version answer changes the result |
| `Vmm.FinalCheck` | tools/labs/skels/assignments/7-kvm-vmm/skel/vmm.c:171-200 | status 1 iff the register read is rejected; otherwise status 0 whatever the outcome. The checks run in order (RAX = 42, then 4 bytes at 0x400 = 42, then 1 byte at 0x180000 = 'x') and the first failure is reported: the RAX value, or the failing probe's address with the value it found or its exit outside guest memory. `Finished` iff all three hold. Uses the corrected probe |
| `Vmm.FinalCheckAsWritten` | tools/labs/skels/assignments/7-kvm-vmm/skel/vmm.c:171-200 | the check phase with the source's probe: status 1 iff the register read is rejected and 0 otherwise; a wrong RAX is reported iff RAX is not 42, carrying the RAX value; then the first failing as-written probe (RAM sentinel, then MMIO sentinel once the RAM one is equal) is reported with its address and value; an exit outside guest memory only for an address beyond both regions; `Finished` iff RAX is 42 and both as-written probes are equal |
| `Vmm.FinalCheckAgreesAsWritten` | tools/labs/skels/assignments/7-kvm-vmm/skel/vmm.c:191-197 | whenever the RAM sentinel lies wholly inside one region, the check phase as written ends exactly as `Vmm.FinalCheck` does, whatever the host bytes past the buffers |
| `Vmm.RunVmm` | tools/labs/skels/assignments/7-kvm-vmm/skel/vmm.c:133-200 | the process is still running exactly when no answer stopped the loop; after a HLT exit it ends exactly as `Vmm.FinalCheck` does (the check phase with the corrected probe), and otherwise only with a loop failure, which reports the first stopping answer's cause: the non-zero return code, the FAIL_ENTRY hardware reason, or the raw exit reason; status 1 iff the loop failed or the registers were unreadable; status 0 with `Finished` iff the first stop is HLT and all three sentinels hold |
| `Vmm.RunVmmEchoes` | tools/labs/skels/assignments/7-kvm-vmm/skel/vmm.c:133-168 | what the host echoes is exactly the data of the OUT exits before the loop's first stopping answer |
| `Vmm.RunVmmAsWritten` | tools/labs/skels/assignments/7-kvm-vmm/skel/vmm.c:171-200 | after a HLT exit whose RAM sentinel lies inside one region, the run ends exactly as the check phase with the source's own probe does, whatever the host bytes past the buffers |
| `Vmm.EchoThenFinish` | tools/labs/skels/assignments/7-kvm-vmm/skel/vmm.c:133-200 | a guest that echoes any byte string, leaves 42 in RAX and the sentinels in memory, and halts, ends with status 0, `Finished`, and exactly that output |

## Findings

| source | as written | input that shows it | evidently intended | confidence | as-written member | corrected member |
|---|---|---|---|---|---|---|
| tools/labs/skels/assignments/7-kvm-vmm/skel/vmm.c:64-69 | only the start address is bounds-checked, then `memcpy` copies `data_size` bytes from the selected host buffer | RAM of 4 bytes, `gpa` 3, `data_size` 4: three of the bytes compared come from host memory past the RAM buffer | an access not wholly inside one region is treated like one outside guest memory | medium (the calls in `main` stay in range), not executed | `GuestMemory.ProbeAsWritten` (`GuestMemory.StraddlingProbeReadsHostMemory`) | `GuestMemory.Probe` |
| tools/labs/skels/assignments/7-kvm-vmm/skel/vcpu.c:56 | the `~(EFER_LME \| EFER_LMA)` mask is applied to `cr0`; EFER is never written | an EFER holding 0x500 (LME and LMA set) is still 0x500 after setup, while CR0.PE is clear | clear LME and LMA in `efer` | high, not executed | `VcpuState.RealModeSregs` (`VcpuState.RealModeKeepsLongMode`) | `VcpuState.RealModeSregsIntended` |
| tools/labs/skels/assignments/7-kvm-vmm/skel/vcpu.c:14-15 | the `int` answer of `KVM_GET_VCPU_MMAP_SIZE` is stored in the `uint64_t` `memval` before the `== 0` check | a size query rejected with -1: `memval` is 2^64 - 1, the check passes and mmap is asked for 2^64 - 1 bytes | a negative answer (a rejected query) ends the process like a zero size | medium (mmap then fails, so the process still exits with 1, under a different message), not executed | `VcpuSetup.CreateVcpu` (`VcpuSetup.RejectedSizeQueryReachesMmap`) | `VcpuSetup.CreateVcpuIntended` |

`Vmm.FinalCheck` and `Vmm.RunVmm` use `GuestMemory.Probe`, the corrected
probe; `Vmm.FinalCheckAsWritten` is the check phase with the source's probe,
and `Vmm.FinalCheckAgreesAsWritten` proves the two agree whenever the RAM
sentinel lies inside one region.
`VcpuSetup.RealModeBootstrap` writes back the source's transform
(`RealModeSregs`), because setup_real_mode is modelled as written.
`RealModeSregsIntended` is the corrected transform, with its properties proved.

## Left out

- `create_vm` (vm.c) is left out. It is KVM ioctl and mmap plumbing. The
  model keeps only RAM from guest-physical 0 and, as the probe in vmm.c
  addresses it, an MMIO buffer above RAM whose size is an input.
- Vmm.FinalCheck: judges the sentinels with the corrected probe. When the 4
  bytes at 0x400 straddle the end of a region (a RAM of 0x401 to 0x403
  bytes, say), the source's check compares host bytes past the buffer, while
  the model reports the sentinel outside guest memory. That case is covered
  only by `Vmm.FinalCheckAsWritten`.
- Vmm.RunVmm: after a HLT exit it ends as `Vmm.FinalCheck`, with the
  corrected probe. When the 4 bytes at 0x400 straddle the end of a region,
  the source compares host bytes past the buffer, while the model reports
  `OutsideGuestMemory(0x400)`. `Vmm.RunVmmAsWritten` ties the run to the
  as-written check phase whenever the sentinel fits in one region.
- Lines 108-131 of `main` are left out. The functions they call
  (`setup_protected_mode`, `setup_long_mode`, the paging setups,
  `copy_to_vm_pa`, `set_rip`) are not part of this model, because no file of
  the source defines them.
- Paging construction and the protected-mode and long-mode transitions are
  left out for the same reason.
- The paravirtual device handshake and the guest-to-host ring queue are left
  out. They exist only as TODO comments in the guest payloads, so there is no
  host code to model. The guest payloads themselves are out of scope.
- Console output is modelled only as the sequence of echoed bytes. `printf`
  and `perror` text, `fflush` and `print_code` are left out.
- The return value of `handle_io` and `handle_mmio` is always 0, and the loop
  ignores it, so the model does not carry it. That `handle_mmio` changes
  nothing is stated in `ExitDispatch.Step`.
- The MMIO payload of the run record (address, data, length, write flag) is
  not modelled, because `handle_mmio` never reads it.
- The run record's `union` overlay is not modelled. It appears as named views
  (`io`, the entry-failure reason, the raw bytes that `data_offset` points
  into).
- The guest's own writes to memory and registers while it runs are not
  modelled. Memory and registers at the time of the halt are inputs of
  `Vmm.RunVmm`.
- A guest that never stops is not modelled. The `KVM_RUN` answers are a
  finite sequence, and a loop that has not stopped when they run out is
  reported as `StillRunning`.
- Blocking, concurrency and the kernel timer and workqueue modules elsewhere
  in the repository are not modelled. They share no code with the monitor.

=== FILE: exit_dispatch.dfy ===
/**
  The VM-exit dispatch loop of vmm.c's `main`, with `handle_io` and
  `handle_mmio`. Each KVM_RUN is an oracle answer: its return code and the
  run record it leaves behind. The loop is a step function over
  `Running | Checking | Fatal`, driven along a finite sequence of answers.
 */
module ExitDispatch {
  import opened Words

  // Exit reasons and I/O directions of the KVM userspace API (linux/kvm.h).
  const KVM_EXIT_IO: u32 := 2
  const KVM_EXIT_HLT: u32 := 5
  const KVM_EXIT_MMIO: u32 := 6
  const KVM_EXIT_FAIL_ENTRY: u32 := 9
  const KVM_EXIT_IO_IN: u8 := 0
  const KVM_EXIT_IO_OUT: u8 := 1

  /** The `io` view of the run record. */
  datatype IoExit = IoExit(direction: u8, size: u8, port: u16, count: u32, dataOffset: u64)

  /**
    The run record as the host reads it after a KVM_RUN: the exit reason, the
    `io` and `fail_entry` views, and the bytes of the mapped record itself,
    which I/O data is addressed into by `io.dataOffset`.
   */
  datatype RunRecord = RunRecord(exitReason: u32, io: IoExit, hardwareEntryFailureReason: u64, page: seq<u8>)

  /** One KVM_RUN request: the ioctl's return code and the record it leaves. */
  datatype RunResult = RunResult(rc: int, record: RunRecord)

  /** KVM places the data of an I/O exit inside the mapped run record. */
  predicate WellFormed(r: RunResult) {
    r.rc == 0 && r.record.exitReason == KVM_EXIT_IO ==> r.record.io.dataOffset < |r.record.page|
  }

  /** A KVM_RUN answer as KVM can give it. */
  type Answer = r: RunResult | WellFormed(r)
    witness RunResult(-1, RunRecord(0, IoExit(0, 0, 0, 0, 0), 0, []))

  /** Why the loop ended the process; every cause exits with status 1. */
  datatype FatalCause =
    | RunRejected(rc: int)
    | EntryFailed(hardwareReason: u64)
    | UnexpectedExit(reason: u32)

  datatype Phase = Running | Checking | Fatal(cause: FatalCause)

  /**
    Loop state: the phase, the bytes the guest has written to the host's
    standard output so far, and the number of KVM_RUN requests issued.
   */
  datatype LoopState = LoopState(phase: Phase, output: seq<u8>, runs: nat)

  const Start: LoopState := LoopState(Running, [], 0)

  /** A run answer after which the loop asks for the next exit. */
  predicate Continues(r: Answer) {
    r.rc == 0 && (r.record.exitReason == KVM_EXIT_IO || r.record.exitReason == KVM_EXIT_MMIO)
  }

  /** A run answer that reports a guest `out`: its data byte is echoed. */
  predicate Echoes(r: Answer) {
    r.rc == 0 && r.record.exitReason == KVM_EXIT_IO && r.record.io.direction == KVM_EXIT_IO_OUT
  }

  /**
    `handle_io`: the bytes written to standard output. The byte at
    `data_offset` is emitted exactly when the direction is OUT; neither the
    port nor the access size is looked at. The handler returns 0, which the
    loop ignores.
   */
  function HandleIo(rec: RunRecord): (emitted: seq<u8>)
    requires rec.io.dataOffset < |rec.page|
    ensures |emitted| <= 1
    ensures |emitted| == 1 <==> rec.io.direction == KVM_EXIT_IO_OUT
    ensures |emitted| == 1 ==> emitted[0] == rec.page[rec.io.dataOffset]
  {
    var chr := rec.page[rec.io.dataOffset];
    if rec.io.direction == KVM_EXIT_IO_OUT then [chr] else []
  }

  /** `handle_io` is indifferent to the port number, the access size and the repeat count. */
  lemma HandleIoIgnoresPort(rec: RunRecord, port: u16, size: u8, count: u32)
    requires rec.io.dataOffset < |rec.page|
    ensures HandleIo(rec.(io := rec.io.(port := port, size := size, count := count))) == HandleIo(rec)
  {
  }

  /**
    One iteration of the loop: issue KVM_RUN and dispatch on its answer. A
    non-zero return code is fatal; HLT leaves for the check phase; MMIO
    (whose handler changes nothing) and IO continue the loop; FAIL_ENTRY
    falls out of the switch into the unexpected-exit path, like any other
    reason, and is fatal.
   */
  function Step(s: LoopState, r: Answer): (t: LoopState)
    requires s.phase.Running?
    ensures t.runs == s.runs + 1
    ensures t.phase.Running? <==> Continues(r)
    ensures t.phase.Checking? <==> r.rc == 0 && r.record.exitReason == KVM_EXIT_HLT
    // each fatal path records what the source prints on it
    ensures r.rc != 0 ==> t.phase == Fatal(RunRejected(r.rc))
    ensures r.rc == 0 && r.record.exitReason == KVM_EXIT_FAIL_ENTRY ==>
              t.phase == Fatal(EntryFailed(r.record.hardwareEntryFailureReason))
    ensures r.rc == 0 && r.record.exitReason !in {KVM_EXIT_IO, KVM_EXIT_MMIO, KVM_EXIT_HLT, KVM_EXIT_FAIL_ENTRY} ==>
              t.phase == Fatal(UnexpectedExit(r.record.exitReason))
    ensures Echoes(r) ==> t.output == s.output + [r.record.page[r.record.io.dataOffset]]
    ensures !Echoes(r) ==> t.output == s.output
  {
    var s' := s.(runs := s.runs + 1);
    if r.rc != 0 then s'.(phase := Fatal(RunRejected(r.rc)))
    else
      var rec := r.record;
      if rec.exitReason == KVM_EXIT_HLT then s'.(phase := Checking)
      else if rec.exitReason == KVM_EXIT_FAIL_ENTRY then s'.(phase := Fatal(EntryFailed(rec.hardwareEntryFailureReason)))
      else if rec.exitReason == KVM_EXIT_MMIO then s'
      else if rec.exitReason == KVM_EXIT_IO then s'.(output := s.output + HandleIo(rec))
      else s'.(phase := Fatal(UnexpectedExit(rec.exitReason)))
  }

  /**
    The loop, run along the answers `oracle` until it leaves `Running` or the
    answers run out. From a running state it ends in the closed form
    `Settle`: the leading IO and MMIO exits are consumed, echoing exactly the
    data bytes of the OUT ones, and the first other answer decides the end.
   */
  function Run(s: LoopState, oracle: seq<Answer>): (t: LoopState)
    ensures !s.phase.Running? ==> t == s
    ensures s.phase.Running? ==> t == Settle(s, oracle)
    ensures s.phase.Running? ==> t.output == s.output + Echoed(oracle[..FirstStop(oracle)])
    decreases |oracle|
  {
    if !s.phase.Running? then s
    else
      SettleOutput(s, oracle);
      if |oracle| == 0 then
        assert s.output + Echoed(oracle) == s.output;
        s
      else if !Continues(oracle[0]) then
        assert oracle[..0] == [];
        assert s.output + Echoed(oracle[..0]) == s.output;
        Step(s, oracle[0])
      else
        SettleStep(s, oracle);
        Run(Step(s, oracle[0]), oracle[1..])
  }

  /** Index of the first answer that stops the loop, or `|oracle|` if none does. */
  function FirstStop(oracle: seq<Answer>): (k: nat)
    ensures k <= |oracle|
    ensures forall i | 0 <= i < k :: Continues(oracle[i])
    ensures k < |oracle| ==> !Continues(oracle[k])
  {
    if |oracle| == 0 || !Continues(oracle[0]) then 0 else 1 + FirstStop(oracle[1..])
  }

  /** The bytes the guest's `out` exits among `rs` carry, in order. */
  function Echoed(rs: seq<Answer>): seq<u8>
  {
    if |rs| == 0 then []
    else (if Echoes(rs[0]) then [rs[0].record.page[rs[0].record.io.dataOffset]] else []) + Echoed(rs[1..])
  }

  /**
    Where a running loop ends after the answers `oracle`: the leading IO and
    MMIO answers are consumed, each adding one KVM_RUN and echoing the data
    of the OUT ones, and the first other answer is dispatched by `Step`; with
    none the loop is still running after one KVM_RUN per answer.
   */
  function Settle(s: LoopState, oracle: seq<Answer>): LoopState {
    var k := FirstStop(oracle);
    if k < |oracle| then Step(LoopState(Running, s.output + Echoed(oracle[..k]), s.runs + k), oracle[k])
    else LoopState(Running, s.output + Echoed(oracle), s.runs + |oracle|)
  }

  /** One continuing answer moves the loop one step without changing where it settles. */
  lemma SettleStep(s: LoopState, oracle: seq<Answer>)
    requires s.phase.Running? && |oracle| > 0 && Continues(oracle[0])
    ensures Settle(s, oracle) == Settle(Step(s, oracle[0]), oracle[1..])
  {
    var k := FirstStop(oracle);
    var s1 := Step(s, oracle[0]);
    var tail := oracle[1..];
    assert s1 == LoopState(Running, s.output + Echoed([oracle[0]]), s.runs + 1) by {
      assert [oracle[0]][1..] == [];
    }
    assert FirstStop(tail) == k - 1;
    if k < |oracle| {
      EchoedUncons(oracle[..k]);
      assert oracle[..k][1..] == tail[..k - 1];
      assert s1.output + Echoed(tail[..k - 1]) == s.output + Echoed(oracle[..k]);
    } else {
      EchoedUncons(oracle);
      assert s1.output + Echoed(tail) == s.output + Echoed(oracle);
    }
  }

  lemma EchoedUncons(rs: seq<Answer>)
    requires |rs| > 0
    ensures Echoed(rs) == Echoed([rs[0]]) + Echoed(rs[1..])
  {
    assert [rs[0]][1..] == [];
  }

  /** Where a running loop settles, its output has grown by exactly what the answers before the first stop echo. */
  lemma SettleOutput(s: LoopState, oracle: seq<Answer>)
    requires s.phase.Running?
    ensures Settle(s, oracle).output == s.output + Echoed(oracle[..FirstStop(oracle)])
  {
    if FirstStop(oracle) == |oracle| {
      assert oracle[..|oracle|] == oracle;
    }
  }

  /** The first answer that stops the loop is a successful HLT exit. */
  predicate HaltsFirst(oracle: seq<Answer>) {
    var k := FirstStop(oracle);
    k < |oracle| && oracle[k].rc == 0 && oracle[k].record.exitReason == KVM_EXIT_HLT
  }

  /** The loop reaches the check phase exactly when the first stopping answer is a successful HLT exit. */
  lemma ReachesCheck(oracle: seq<Answer>)
    ensures Run(Start, oracle).phase.Checking? <==> HaltsFirst(oracle)
  {
  }

  /** FAIL_ENTRY is terminal: once it is the first stopping answer, the loop ends fatally. */
  lemma EntryFailureIsFatal(oracle: seq<Answer>)
    requires FirstStop(oracle) < |oracle|
    requires oracle[FirstStop(oracle)].record.exitReason == KVM_EXIT_FAIL_ENTRY
    ensures Run(Start, oracle).phase.Fatal?
  {
  }

  /** An answer that reports a guest `out` of byte `b` on some port. */
  function OutExit(b: u8, port: u16): (r: Answer)
    ensures Echoes(r) && Continues(r)
    ensures r.record.page[r.record.io.dataOffset] == b
  {
    RunResult(0, RunRecord(KVM_EXIT_IO, IoExit(KVM_EXIT_IO_OUT, 1, port, 1, 0), 0, [b]))
  }

  function OutExits(bs: seq<u8>, port: u16): (rs: seq<Answer>)
    ensures |rs| == |bs|
    ensures forall i | 0 <= i < |rs| :: rs[i] == OutExit(bs[i], port)
  {
    if |bs| == 0 then [] else [OutExit(bs[0], port)] + OutExits(bs[1..], port)
  }

  const HltExit: Answer := RunResult(0, RunRecord(KVM_EXIT_HLT, IoExit(0, 0, 0, 0, 0), 0, []))

  /**
    A guest that writes the bytes `bs` one `out` at a time and then halts:
    the host echoes exactly `bs` and reaches the check phase after
    `|bs| + 1` KVM_RUN requests.
   */
  lemma {:induction false} EchoThenHalt(bs: seq<u8>, port: u16)
    ensures Run(Start, OutExits(bs, port) + [HltExit]) == LoopState(Checking, bs, |bs| + 1)
  {
    var oracle := OutExits(bs, port) + [HltExit];
    assert forall i | 0 <= i < |bs| :: oracle[i] == OutExit(bs[i], port);
    assert FirstStop(oracle) == |bs| by {
      FirstStopAt(oracle, |bs|);
    }
    assert oracle[..|bs|] == OutExits(bs, port);
    EchoedOutExits(bs, port);
  }

  lemma {:induction false} FirstStopAt(oracle: seq<Answer>, k: nat)
    requires k < |oracle|
    requires forall i | 0 <= i < k :: Continues(oracle[i])
    requires !Continues(oracle[k])
    ensures FirstStop(oracle) == k
  {
    if k > 0 {
      FirstStopAt(oracle[1..], k - 1);
    }
  }

  lemma {:induction false} EchoedOutExits(bs: seq<u8>, port: u16)
    ensures Echoed(OutExits(bs, port)) == bs
  {
    if |bs| > 0 {
      var rs := OutExits(bs, port);
      assert rs[1..] == OutExits(bs[1..], port);
      EchoedOutExits(bs[1..], port);
    }
  }
}

=== FILE: guest_memory.dfy ===
/**
  The host's view of guest-physical memory and the sentinel probe of vmm.c
  (`probe_and_compare_guest_memory`): an address is resolved against the RAM
  region, which vm.c installs as memory slot 0 at guest-physical address 0, or
  against the MMIO region that sits directly above it; up to eight bytes are
  read as a little-endian value and compared against an expected one.
 */
module GuestMemory {
  import opened Words

  /** Width of the `memval` variable the probe copies guest bytes into. */
  const MEMVAL_SIZE: nat := 8

  /**
    The two host buffers that back guest-physical memory: `mem` (RAM, from
    guest-physical 0) and `mmio` (the MMIO region, directly above RAM).
   */
  datatype Vm = Vm(mem: seq<u8>, mmio: seq<u8>)

  /** Both region sizes are host `size_t` values. */
  predicate Valid(vm: Vm) {
    |vm.mem| < TWO_TO_THE_64 && |vm.mmio| < TWO_TO_THE_64
  }

  /** Guest-physical memory as the guest sees it: RAM, then the MMIO window. */
  function PhysicalView(vm: Vm): seq<u8> {
    vm.mem + vm.mmio
  }

  /** Which host buffer a guest-physical address falls in, and at what offset. */
  datatype Region = Ram(offset: nat) | MmioWindow(offset: nat) | Outside

  /**
    Region selection of the probe. The MMIO guard is the source's unsigned
    `gpa - mem_size < mmio_mem_size`; it is only reached when `gpa >= mem_size`,
    so the subtraction never wraps and the guard is exactly the MMIO interval.
   */
  function Resolve(vm: Vm, gpa: u64): (r: Region)
    requires Valid(vm)
    ensures r.Ram? <==> gpa < |vm.mem|
    ensures r.Ram? ==> r.offset == gpa
    ensures r.MmioWindow? <==> |vm.mem| <= gpa < |vm.mem| + |vm.mmio|
    ensures r.MmioWindow? ==> r.offset == gpa - |vm.mem| && r.offset < |vm.mmio|
    ensures r.Outside? <==> gpa >= |vm.mem| + |vm.mmio|
  {
    if gpa < |vm.mem| then Ram(gpa)
    else if SubU64(gpa, |vm.mem|) < |vm.mmio| then MmioWindow(SubU64(gpa, |vm.mem|))
    else Outside
  }

  /**
    What the probe reports: `Equal` returns 0, `Differs` prints the value
    found and returns 1, `OutsideVm` terminates the process with status 0
    before any comparison is made.
   */
  datatype ProbeOutcome = Equal | Differs(found: u64) | OutsideVm

  /**
    `memval`: a zeroed 8-byte variable over whose low end `bytes` are copied,
    read back on a little-endian host.
   */
  function Memval(bytes: seq<u8>): (v: u64)
    requires |bytes| <= MEMVAL_SIZE
    ensures v == LeValue(bytes)
  {
    LeValueZeroExtend(bytes, MEMVAL_SIZE - |bytes|);
    Pow256Monotonic(|bytes| + (MEMVAL_SIZE - |bytes|), MEMVAL_SIZE);
    Pow256Eight();
    LeValue(bytes + Zeros(MEMVAL_SIZE - |bytes|))
  }

  function Compare(bytes: seq<u8>, what: u64): (r: ProbeOutcome)
    requires |bytes| <= MEMVAL_SIZE
    ensures !r.OutsideVm?
    ensures r.Equal? <==> LeValue(bytes) == what
    ensures r.Differs? ==> r.found == LeValue(bytes)
  {
    var v := Memval(bytes);
    if v != what then Differs(v) else Equal
  }

  /** The whole `size`-byte access starting at `gpa` lies inside one region. */
  predicate Fits(vm: Vm, gpa: nat, size: nat) {
    || (gpa < |vm.mem| && gpa + size <= |vm.mem|)
    || (|vm.mem| <= gpa < |vm.mem| + |vm.mmio| && gpa + size <= |vm.mem| + |vm.mmio|)
  }

  lemma SliceOfConcat(a: seq<u8>, b: seq<u8>, i: nat, n: nat)
    requires i + n <= |a|
    ensures (a + b)[i..i + n] == a[i..i + n]
  {
  }

  lemma ViewOfRam(vm: Vm, gpa: nat, size: nat)
    requires gpa + size <= |vm.mem|
    ensures PhysicalView(vm)[gpa..gpa + size] == vm.mem[gpa..gpa + size]
  {
  }

  lemma ViewOfMmio(vm: Vm, off: nat, size: nat)
    requires off + size <= |vm.mmio|
    ensures PhysicalView(vm)[|vm.mem| + off..|vm.mem| + off + size] == vm.mmio[off..off + size]
  {
  }

  /**
    The sentinel probe, with the bounds check covering the whole access (see
    `ProbeAsWritten` for the check as the source writes it). It decides from
    the guest-physical view alone: the access is outside unless it lies inside
    one region, and otherwise the zero-extended little-endian value there is
    compared with `what`.
   */
  function Probe(vm: Vm, gpa: u64, dataSize: nat, what: u64): (r: ProbeOutcome)
    requires Valid(vm)
    requires dataSize <= MEMVAL_SIZE
    ensures r.OutsideVm? <==> !Fits(vm, gpa, dataSize)
    ensures r.Equal? <==> Fits(vm, gpa, dataSize) && LeValue(PhysicalView(vm)[gpa..gpa + dataSize]) == what
    ensures r.Differs? ==> r.found == LeValue(PhysicalView(vm)[gpa..gpa + dataSize]) && r.found != what
  {
    match Resolve(vm, gpa)
    case Ram(off) =>
      if off + dataSize <= |vm.mem| then
        ViewOfRam(vm, off, dataSize);
        Compare(vm.mem[off..off + dataSize], what)
      else OutsideVm
    case MmioWindow(off) =>
      if off + dataSize <= |vm.mmio| then
        ViewOfMmio(vm, off, dataSize);
        Compare(vm.mmio[off..off + dataSize], what)
      else OutsideVm
    case Outside => OutsideVm
  }

  /**
    The probe as the source writes it: only the first address is checked, and
    `memcpy` then copies `data_size` bytes from the selected host buffer,
    running past its end when the access straddles it. `afterMem` and
    `afterMmio` stand for the host bytes that follow each buffer.
   */
  function ProbeAsWritten(vm: Vm, gpa: u64, dataSize: nat, what: u64,
                          afterMem: seq<u8>, afterMmio: seq<u8>): (r: ProbeOutcome)
    requires Valid(vm)
    requires dataSize <= MEMVAL_SIZE
    requires |afterMem| >= MEMVAL_SIZE && |afterMmio| >= MEMVAL_SIZE
    ensures r.OutsideVm? <==> gpa >= |vm.mem| + |vm.mmio|
    // an address in RAM compares the bytes from gpa on in the RAM buffer and the host bytes after it
    ensures gpa < |vm.mem| ==>
              && (r.Equal? <==> LeValue((vm.mem + afterMem)[gpa..gpa + dataSize]) == what)
              && (r.Differs? ==> r.found == LeValue((vm.mem + afterMem)[gpa..gpa + dataSize]))
    // an address in the MMIO window does the same in the MMIO buffer, at offset gpa - mem_size
    ensures |vm.mem| <= gpa < |vm.mem| + |vm.mmio| ==>
              && (r.Equal? <==> LeValue((vm.mmio + afterMmio)[gpa - |vm.mem|..gpa - |vm.mem| + dataSize]) == what)
              && (r.Differs? ==> r.found == LeValue((vm.mmio + afterMmio)[gpa - |vm.mem|..gpa - |vm.mem| + dataSize]))
  {
    match Resolve(vm, gpa)
    case Ram(off) => Compare((vm.mem + afterMem)[off..off + dataSize], what)
    case MmioWindow(off) => Compare((vm.mmio + afterMmio)[off..off + dataSize], what)
    case Outside => OutsideVm
  }

  /** Whenever the access lies inside one region, the source's probe and `Probe` agree. */
  lemma AsWrittenAgreesWhenFits(vm: Vm, gpa: u64, dataSize: nat, what: u64,
                                afterMem: seq<u8>, afterMmio: seq<u8>)
    requires Valid(vm)
    requires dataSize <= MEMVAL_SIZE
    requires |afterMem| >= MEMVAL_SIZE && |afterMmio| >= MEMVAL_SIZE
    requires Fits(vm, gpa, dataSize)
    ensures ProbeAsWritten(vm, gpa, dataSize, what, afterMem, afterMmio) == Probe(vm, gpa, dataSize, what)
  {
    match Resolve(vm, gpa)
    case Ram(off) =>
      SliceOfConcat(vm.mem, afterMem, off, dataSize);
    case MmioWindow(off) =>
      SliceOfConcat(vm.mmio, afterMmio, off, dataSize);
    case Outside =>
  }

  /**
    A four-byte probe of the last RAM byte: the source's check lets it
    through, and its verdict then depends on host bytes that are not guest
    memory at all (not even the MMIO bytes that follow in guest-physical
    space), while the whole-access check reports it as outside.
   */
  lemma StraddlingProbeReadsHostMemory()
    ensures var vm := Vm([0, 0, 0, 0], [0, 0, 0, 0]);
      && ProbeAsWritten(vm, 3, 4, 0, Zeros(8), Zeros(8)) == Equal
      && ProbeAsWritten(vm, 3, 4, 0, [1] + Zeros(7), Zeros(8)) == Differs(256)
      && Probe(vm, 3, 4, 0) == OutsideVm
  {
    var vm := Vm([0, 0, 0, 0], [0, 0, 0, 0]);
    assert (vm.mem + Zeros(8))[3..7] == [0, 0, 0, 0];
    assert LeValue([0, 0, 0, 0]) == 0;
    assert (vm.mem + ([1] + Zeros(7)))[3..7] == [0, 1, 0, 0];
    assert LeValue([0, 1, 0, 0]) == 256;
  }
}

=== FILE: host.dfy ===
/**
  What the host files share beyond fixed-width words: an optional value, for
  a host request that may be rejected, and the exit status of the process on
  every fatal error.
 */
module Host {

  datatype Option<T> = None | Some(value: T)

  /** Exit status of the host process on every fatal error (`perror` then `exit(1)`). */
  const FATAL_STATUS: int := 1
}

=== FILE: vcpu_setup.dfy ===
/**
  The host-side vCPU setup of vcpu.c: `create_vcpu` and the request sequence
  of `setup_real_mode`. Every KVM request is an oracle answer passed in as a
  parameter; any rejected request terminates the process with status 1.
 */
module VcpuSetup {
  import opened Words
  import opened Host
  import opened VcpuState

  const INT_MIN: int := -0x8000_0000
  const INT_MAX: int := 0x7fff_ffff

  /** The request whose rejection ended the process. */
  datatype SetupError =
    | CreateVcpuFailed
    | MmapSizeFailed
    | MmapFailed
    | GetSregsFailed
    | GetRegsFailed
    | SetSregsFailed
    | SetRegsFailed

  datatype Result<T> = Ok(value: T) | Died(fatal: SetupError)

  /** A created vCPU: its file descriptor and the size of its mapped run record. */
  datatype Vcpu = Vcpu(fd: nat, runSize: u64)

  /**
    The length `create_vcpu` passes to mmap: the `int` answer of
    KVM_GET_VCPU_MMAP_SIZE stored in the `uint64_t` `memval`, or `None` when
    an earlier check ends the process first. Only zero is caught, so a
    negative answer reaches mmap as a huge length.
   */
  function MmapLength(fdRet: int, sizeRet: int): (len: Option<u64>)
    requires INT_MIN <= fdRet <= INT_MAX && INT_MIN <= sizeRet <= INT_MAX
    ensures len.Some? <==> fdRet >= 0 && sizeRet != 0
    ensures len.Some? && sizeRet > 0 ==> len.value == sizeRet
    ensures len.Some? && sizeRet < 0 ==> len.value == sizeRet + TWO_TO_THE_64
  {
    if fdRet < 0 then None
    else
      var memval := AsU64(sizeRet);
      if memval == 0 then None else Some(memval)
  }

  /**
    `create_vcpu`. `fdRet` is what KVM_CREATE_VCPU returns, `sizeRet` what
    KVM_GET_VCPU_MMAP_SIZE returns (a C `int`, stored into a `uint64_t`), and
    `mmapOk` whether mapping the run record succeeds. The three checks run in
    that order and the first that fails ends the process.
   */
  function CreateVcpu(fdRet: int, sizeRet: int, mmapOk: bool): (r: Result<Vcpu>)
    requires INT_MIN <= fdRet <= INT_MAX && INT_MIN <= sizeRet <= INT_MAX
    ensures r.Ok? <==> fdRet >= 0 && sizeRet != 0 && mmapOk
    ensures fdRet < 0 ==> r == Died(CreateVcpuFailed)
    ensures fdRet >= 0 && sizeRet == 0 ==> r == Died(MmapSizeFailed)
    ensures fdRet >= 0 && sizeRet != 0 && !mmapOk ==> r == Died(MmapFailed)
    ensures r.Ok? ==> r.value.fd == fdRet && Some(r.value.runSize) == MmapLength(fdRet, sizeRet)
  {
    if fdRet < 0 then Died(CreateVcpuFailed)
    else
      match MmapLength(fdRet, sizeRet)
      case None => Died(MmapSizeFailed)
      case Some(memval) => if !mmapOk then Died(MmapFailed) else Ok(Vcpu(fdRet, memval))
  }

  /**
    A rejected size query returns -1, which the zero check on the unsigned
    copy does not catch: mmap is then asked for 2^64 - 1 bytes, and only a
    failing mmap stops the process.
   */
  lemma RejectedSizeQueryReachesMmap(fdRet: int, mmapOk: bool)
    requires 0 <= fdRet <= INT_MAX
    ensures MmapLength(fdRet, -1) == Some(TWO_TO_THE_64 - 1)
    ensures CreateVcpu(fdRet, -1, mmapOk) != Died(MmapSizeFailed)
    ensures !mmapOk ==> CreateVcpu(fdRet, -1, mmapOk) == Died(MmapFailed)
  {
  }

  /**
    `create_vcpu` with the size check it evidently intends: the `int` answer
    is checked before it is widened, so a rejected query (any negative value)
    and a zero size both end the process before mmap is asked.
   */
  function CreateVcpuIntended(fdRet: int, sizeRet: int, mmapOk: bool): (r: Result<Vcpu>)
    requires INT_MIN <= fdRet <= INT_MAX && INT_MIN <= sizeRet <= INT_MAX
    ensures r.Ok? <==> fdRet >= 0 && sizeRet > 0 && mmapOk
    ensures fdRet < 0 ==> r == Died(CreateVcpuFailed)
    ensures fdRet >= 0 && sizeRet <= 0 ==> r == Died(MmapSizeFailed)
    ensures fdRet >= 0 && sizeRet > 0 && !mmapOk ==> r == Died(MmapFailed)
    ensures r.Ok? ==> r.value.fd == fdRet && r.value.runSize == sizeRet
  {
    if fdRet < 0 then Died(CreateVcpuFailed)
    else if sizeRet <= 0 then Died(MmapSizeFailed)
    else if !mmapOk then Died(MmapFailed)
    else Ok(Vcpu(fdRet, sizeRet))
  }

  /** The two differ only on a negative size answer, which the corrected check rejects. */
  lemma {:induction false} CreateVcpuIntendedAgrees(fdRet: int, sizeRet: int, mmapOk: bool)
    requires INT_MIN <= fdRet <= INT_MAX && INT_MIN <= sizeRet <= INT_MAX
    ensures sizeRet >= 0 ==> CreateVcpuIntended(fdRet, sizeRet, mmapOk) == CreateVcpu(fdRet, sizeRet, mmapOk)
    ensures sizeRet < 0 && fdRet >= 0 ==> CreateVcpuIntended(fdRet, sizeRet, mmapOk) == Died(MmapSizeFailed)
    ensures sizeRet < 0 && fdRet >= 0 && mmapOk ==> CreateVcpu(fdRet, sizeRet, mmapOk).Ok?
  {
  }

  /** A request `setup_real_mode` issues on the vCPU. */
  datatype Request = GetSregs | GetRegs | SetSregs(sregs: Sregs) | SetRegs(regs: Regs)

  /** The vCPU's register state. */
  datatype Cpu = Cpu(sregs: Sregs, regs: Regs)

  /** The four requests of `setup_real_mode` on a vCPU holding `cpu`, in the order they are issued. */
  function Plan(cpu: Cpu): seq<Request> {
    [GetSregs, GetRegs, SetSregs(RealModeSregs(cpu.sregs)), SetRegs(RealModeRegs(cpu.regs))]
  }

  /** Whether KVM accepts each of the four requests. */
  datatype Answers = Answers(getSregsOk: bool, getRegsOk: bool, setSregsOk: bool, setRegsOk: bool)

  predicate Accepts(ans: Answers, q: Request) {
    match q
    case GetSregs => ans.getSregsOk
    case GetRegs => ans.getRegsOk
    case SetSregs(_) => ans.setSregsOk
    case SetRegs(_) => ans.setRegsOk
  }

  /** Requests issued, the vCPU state afterwards, and the fatal error if any. */
  datatype Bootstrap = Bootstrap(issued: seq<Request>, after: Cpu, fatal: Option<SetupError>)

  /**
    `setup_real_mode` on a vCPU holding `cpu`. Requests go out in the order
    GET sregs, GET regs, SET sregs, SET regs; the first rejection ends the
    process, so no SET follows a failed GET and the general registers are
    only committed after the special registers were. What is written back is
    what was read, transformed by `RealModeSregs` and `RealModeRegs`.
   */
  function RealModeBootstrap(cpu: Cpu, ans: Answers): (b: Bootstrap)
    // the requests issued are a non-empty prefix of the fixed four
    ensures 1 <= |b.issued| <= 4 && b.issued == Plan(cpu)[..|b.issued|]
    ensures b.fatal.None? <==> ans.getSregsOk && ans.getRegsOk && ans.setSregsOk && ans.setRegsOk
    ensures b.fatal.None? ==> |b.issued| == 4
    // every request but the last was accepted; the last is rejected exactly when setup fails
    ensures forall i | 0 <= i < |b.issued| - 1 :: Accepts(ans, b.issued[i])
    ensures b.fatal.Some? <==> !Accepts(ans, b.issued[|b.issued| - 1])
    ensures b.after.sregs == (if SetSregs(RealModeSregs(cpu.sregs)) in b.issued && ans.setSregsOk
                              then RealModeSregs(cpu.sregs) else cpu.sregs)
    ensures b.after.regs == (if SetRegs(RealModeRegs(cpu.regs)) in b.issued && ans.setRegsOk
                             then RealModeRegs(cpu.regs) else cpu.regs)
    ensures b.after.regs != cpu.regs ==> b.after.sregs == RealModeSregs(cpu.sregs)
    ensures b.fatal.Some? ==> b.fatal.value == FatalOf(b.issued[|b.issued| - 1])
  {
    var plan := Plan(cpu);
    if !ans.getSregsOk then Bootstrap(plan[..1], cpu, Some(GetSregsFailed))
    else if !ans.getRegsOk then Bootstrap(plan[..2], cpu, Some(GetRegsFailed))
    else if !ans.setSregsOk then Bootstrap(plan[..3], cpu, Some(SetSregsFailed))
    else if !ans.setRegsOk then Bootstrap(plan, cpu.(sregs := plan[2].sregs), Some(SetRegsFailed))
    else Bootstrap(plan, Cpu(plan[2].sregs, plan[3].regs), None)
  }

  /** The error a rejected request is reported as. */
  function FatalOf(q: Request): SetupError {
    match q
    case GetSregs => GetSregsFailed
    case GetRegs => GetRegsFailed
    case SetSregs(_) => SetSregsFailed
    case SetRegs(_) => SetRegsFailed
  }
}

=== FILE: vcpu_state.dfy ===
/**
  The vCPU register state the host reads and writes through KVM
  (`struct kvm_sregs`, `struct kvm_segment`, `struct kvm_dtable` and
  `struct kvm_regs`), and the real-mode transformation of vcpu.c
  (`setup_real_mode`) applied to it.

  Bit positions follow the Intel SDM, Volume 3A: CR0.PE is bit 0 of CR0
  (section 2.5, Control Registers); EFER.LME is bit 8 and EFER.LMA bit 10 of
  the EFER MSR (section 2.2.1, Extended Feature Enable Register); RFLAGS bit 1
  is reserved and always set, bit 9 is IF.
 */
module VcpuState {
  import opened Words

  const CR0_PE: bv64 := 0x1                // 1 << 0
  const EFER_LME: bv64 := 0x100            // 1 << 8
  const EFER_LMA: bv64 := 0x400            // 1 << 10
  const RFLAGS_RESERVED_ONE: bv64 := 0x2   // 1 << 1

  const PE_BIT: nat := 0
  const LME_BIT: nat := 8
  const LMA_BIT: nat := 10
  const IF_BIT: nat := 9

  /** Real-mode code segment and GDT limit: 64 KiB. */
  const REAL_MODE_LIMIT: nat := 0xffff

  predicate Bit(x: bv64, i: nat)
    requires i < 64
  {
    x & (1 << i) != 0
  }

  /** `x` and `y` agree on every bit outside `mask`. */
  predicate SameOutside(x: bv64, y: bv64, mask: bv64) {
    x & !mask == y & !mask
  }

  /** `x &= ~mask`: the bits of `mask` end up clear, every other bit is kept. */
  function ClearBits(x: bv64, mask: bv64): (y: bv64)
    ensures y & mask == 0
    ensures SameOutside(x, y, mask)
  {
    x & !mask
  }

  /** `struct kvm_segment`: a segment register with its hidden descriptor part. */
  datatype Segment = Segment(
    base: u64, limit: u32, selector: u16, segType: u8,
    present: u8, dpl: u8, db: u8, s: u8, l: u8, g: u8, avl: u8,
    unusable: u8, padding: u8)

  /** `struct kvm_dtable`: the GDTR or IDTR. */
  datatype DescriptorTable = DescriptorTable(base: u64, limit: u16, padding: seq<u16>)

  /** `struct kvm_sregs`: segment, descriptor-table and control registers. */
  datatype Sregs = Sregs(
    cs: Segment, ds: Segment, es: Segment, fs: Segment, gs: Segment, ss: Segment,
    tr: Segment, ldt: Segment,
    gdt: DescriptorTable, idt: DescriptorTable,
    cr0: bv64, cr2: bv64, cr3: bv64, cr4: bv64, cr8: bv64,
    efer: bv64, apicBase: bv64,
    interruptBitmap: seq<u64>)

  /** `struct kvm_regs`: general-purpose registers, RIP and RFLAGS. */
  datatype Regs = Regs(
    rax: u64, rbx: u64, rcx: u64, rdx: u64,
    rsi: u64, rdi: u64, rsp: u64, rbp: u64,
    r8: u64, r9: u64, r10: u64, r11: u64,
    r12: u64, r13: u64, r14: u64, r15: u64,
    rip: u64, rflags: bv64)

  /**
    The special registers `setup_real_mode` writes back, as the source computes
    them. CR0 loses PE, and the mask `~(EFER_LME | EFER_LMA)` is applied to CR0
    too, so CR0 bits 8 and 10 are cleared and EFER keeps whatever it held.
    CR3 is zeroed; CS becomes selector 0, base 0, limit 0xffff; the GDT
    becomes base 0, limit 0xffff. Nothing else that was read is changed.
   */
  function RealModeSregs(s: Sregs): (r: Sregs)
    ensures !Bit(r.cr0, PE_BIT)
    ensures !Bit(r.cr0, LME_BIT) && !Bit(r.cr0, LMA_BIT)
    ensures SameOutside(r.cr0, s.cr0, CR0_PE | EFER_LME | EFER_LMA)
    ensures r.efer == s.efer
    ensures r.cr3 == 0
    ensures r.cs.selector == 0 && r.cs.base == 0 && r.cs.limit == REAL_MODE_LIMIT
    ensures r.gdt.base == 0 && r.gdt.limit == REAL_MODE_LIMIT
    // nothing else changes
    ensures r.(cr0 := s.cr0, cr3 := s.cr3, cs := s.cs, gdt := s.gdt) == s
    ensures r.cs.(selector := s.cs.selector, base := s.cs.base, limit := s.cs.limit) == s.cs
    ensures r.gdt.padding == s.gdt.padding
  {
    s.(cr0 := ClearBits(ClearBits(s.cr0, CR0_PE), EFER_LME | EFER_LMA),
       cr3 := 0,
       cs := s.cs.(selector := 0, base := 0, limit := 0xffff),
       gdt := s.gdt.(base := 0, limit := 0xffff))
  }

  /**
    The general registers `setup_real_mode` writes back: RFLAGS holds only its
    always-one reserved bit (so interrupts are disabled) and RIP is 0; every
    other register keeps the value read.
   */
  function RealModeRegs(g: Regs): (r: Regs)
    ensures Bit(r.rflags, 1)
    ensures r.rflags & !RFLAGS_RESERVED_ONE == 0
    ensures !Bit(r.rflags, IF_BIT)
    ensures r.rip == 0
    ensures r.(rflags := g.rflags, rip := g.rip) == g
  {
    g.(rflags := 0x2, rip := 0)
  }

  /**
    The real-mode special registers the transition evidently intends: PE
    cleared in CR0 and LME/LMA cleared in EFER, with the other fields as in
    `RealModeSregs`.
   */
  function RealModeSregsIntended(s: Sregs): (r: Sregs)
    ensures !Bit(r.cr0, PE_BIT)
    ensures SameOutside(r.cr0, s.cr0, CR0_PE)
    ensures !Bit(r.efer, LME_BIT) && !Bit(r.efer, LMA_BIT)
    ensures SameOutside(r.efer, s.efer, EFER_LME | EFER_LMA)
    ensures r.cr3 == 0
    ensures r.(cr0 := s.cr0, efer := s.efer) == RealModeSregs(s).(cr0 := s.cr0)
  {
    s.(cr0 := ClearBits(s.cr0, CR0_PE),
       efer := ClearBits(s.efer, EFER_LME | EFER_LMA),
       cr3 := 0,
       cs := s.cs.(selector := 0, base := 0, limit := 0xffff),
       gdt := s.gdt.(base := 0, limit := 0xffff))
  }

  /**
    The source's transition leaves long mode enabled and active in EFER when
    it was before, while CR0.PE is cleared: the state it commits can claim long
    mode with protection disabled. The intended one clears both.
   */
  lemma RealModeKeepsLongMode(s: Sregs)
    requires Bit(s.efer, LME_BIT) || Bit(s.efer, LMA_BIT)
    ensures Bit(RealModeSregs(s).efer, LME_BIT) == Bit(s.efer, LME_BIT)
    ensures Bit(RealModeSregs(s).efer, LMA_BIT) == Bit(s.efer, LMA_BIT)
    ensures !Bit(RealModeSregs(s).cr0, PE_BIT)
    ensures !Bit(RealModeSregsIntended(s).efer, LME_BIT) && !Bit(RealModeSregsIntended(s).efer, LMA_BIT)
    ensures RealModeSregs(s) != RealModeSregsIntended(s)
  {
  }

  /** Applying the transformation twice is the same as applying it once. */
  lemma RealModeIdempotent(s: Sregs, g: Regs)
    ensures RealModeSregs(RealModeSregs(s)) == RealModeSregs(s)
    ensures RealModeRegs(RealModeRegs(g)) == RealModeRegs(g)
  {
    var r := RealModeSregs(s);
    RealModeCr0Stable(s.cr0);
    var rr := RealModeSregs(r);
    assert rr.cr0 == r.cr0;
    assert rr.cs == r.cs;
    assert rr.gdt == r.gdt;
  }

  /** Clearing the real-mode CR0 mask a second time changes nothing. */
  lemma RealModeCr0Stable(c: bv64)
    ensures var once := ClearBits(ClearBits(c, CR0_PE), EFER_LME | EFER_LMA);
      ClearBits(ClearBits(once, CR0_PE), EFER_LME | EFER_LMA) == once
  {
    var m := EFER_LME | EFER_LMA;
    var half := ClearBits(c, CR0_PE);
    var once := ClearBits(half, m);
    ClearBitsCommute(half, m, CR0_PE);
    ClearBitsTwice(c, CR0_PE);
    assert ClearBits(once, CR0_PE) == once;
    ClearBitsTwice(half, m);
  }

  lemma ClearBitsTwice(x: bv64, m: bv64)
    ensures ClearBits(ClearBits(x, m), m) == ClearBits(x, m)
  {
  }

  lemma ClearBitsCommute(x: bv64, a: bv64, b: bv64)
    ensures ClearBits(ClearBits(x, a), b) == ClearBits(ClearBits(x, b), a)
  {
  }
}

=== FILE: vmm.dfy ===
/**
  The parts of vmm.c's `main` around the dispatch loop: opening the KVM
  device and checking its API version, then — once the loop leaves — the
  three final checks on the guest's state, in order, stopping at the first
  that fails.
 */
module Vmm {
  import opened Words
  import opened Host
  import opened GuestMemory
  import opened VcpuState
  import opened ExitDispatch

  /** The KVM API version this host is built against (linux/kvm.h). */
  const KVM_API_VERSION: int := 12

  /** The guest must leave 42 in RAX ... */
  const RAX_SENTINEL: u64 := 42
  /** ... the 4 bytes at guest-physical 0x400 must read 42 ... */
  const RAM_SENTINEL_GPA: u64 := 0x400
  const RAM_SENTINEL_SIZE: nat := 4
  const RAM_SENTINEL: u64 := 42
  /** ... and the byte at guest-physical 0x180000 must be 'x'. */
  const MMIO_SENTINEL_GPA: u64 := 0x18_0000
  const MMIO_SENTINEL_SIZE: nat := 1
  const MMIO_SENTINEL: u64 := 0x78

  /** Why `main` could not start: opening /dev/kvm failed, or the API version differs. */
  datatype StartFailure = OpenFailed | VersionMismatch(version: int)

  /**
    Lines 96-106 of `main`: `fd` is what opening /dev/kvm returns and
    `version` what KVM_GET_API_VERSION answers; either failure exits with
    status 1, and the version is only asked for once the open succeeded.
   */
  function OpenKvm(fd: int, version: int): (r: Option<StartFailure>)
    ensures r.None? <==> fd >= 0 && version == KVM_API_VERSION
    ensures fd < 0 ==> r == Some(OpenFailed)
    ensures fd >= 0 && version != KVM_API_VERSION ==> r == Some(VersionMismatch(version))
  {
    if fd < 0 then Some(OpenFailed)
    else if version != KVM_API_VERSION then Some(VersionMismatch(version))
    else None
  }

  /** The API version is never consulted when the open failed: any answer gives the same result. */
  lemma OpenFailureIgnoresVersion(fd: int, v1: int, v2: int)
    requires fd < 0
    ensures OpenKvm(fd, v1) == OpenKvm(fd, v2) == Some(OpenFailed)
  {
  }

  /** What `main` reports before it ends. */
  datatype Report =
    | RunFatal(cause: FatalCause)
    | RegsUnreadable
    | WrongRax(rax: u64)
    | WrongMemory(gpa: u64, found: u64)
    | OutsideGuestMemory(gpa: u64)
    | Finished

  /** How the process ends: its exit status and its last report. */
  datatype Ending = Ending(status: int, report: Report)

  /** The report for a failed probe at `gpa`. */
  function ProbeReport(gpa: u64, p: ProbeOutcome): Report
    requires !p.Equal?
  {
    match p
    case Differs(found) => WrongMemory(gpa, found)
    case OutsideVm => OutsideGuestMemory(gpa)
  }

  /** The memory sentinels hold: both accesses lie in guest memory and read the expected values. */
  predicate MemorySentinelsHold(vm: Vm)
    requires Valid(vm)
  {
    && Fits(vm, RAM_SENTINEL_GPA, RAM_SENTINEL_SIZE)
    && LeValue(PhysicalView(vm)[RAM_SENTINEL_GPA..RAM_SENTINEL_GPA + RAM_SENTINEL_SIZE]) == RAM_SENTINEL
    && Fits(vm, MMIO_SENTINEL_GPA, MMIO_SENTINEL_SIZE)
    && PhysicalView(vm)[MMIO_SENTINEL_GPA] == MMIO_SENTINEL
  }

  /** The probe of the RAM sentinel: 4 bytes at 0x400 against 42. */
  function RamProbe(vm: Vm): ProbeOutcome
    requires Valid(vm)
  {
    Probe(vm, RAM_SENTINEL_GPA, RAM_SENTINEL_SIZE, RAM_SENTINEL)
  }

  /** The probe of the MMIO sentinel: the byte at 0x180000 against 'x'. */
  function MmioProbe(vm: Vm): ProbeOutcome
    requires Valid(vm)
  {
    Probe(vm, MMIO_SENTINEL_GPA, MMIO_SENTINEL_SIZE, MMIO_SENTINEL)
  }

  /**
    The check phase (lines 171-200). `regs` is the answer to KVM_GET_REGS
    (`None` when it is rejected) and `vm` guest memory as the guest left it.
    Only a rejected register read exits with status 1; every check outcome,
    a probe outside guest memory included, ends the process with status 0.
    The checks run in order and the first failure is the one reported.
   */
  function FinalCheck(vm: Vm, regs: Option<Regs>): (e: Ending)
    requires Valid(vm)
    ensures e.status == 1 <==> regs.None?
    ensures e.status == 0 <==> regs.Some?
    ensures e.report == RegsUnreadable <==> regs.None?
    ensures e.report.WrongRax? <==> regs.Some? && regs.value.rax != RAX_SENTINEL
    ensures e.report.WrongRax? ==> e.report.rax == regs.value.rax
    ensures (e.report.WrongMemory? || e.report.OutsideGuestMemory?) ==> regs.Some? && regs.value.rax == RAX_SENTINEL
    ensures (e.report.WrongMemory? || e.report.OutsideGuestMemory?) && e.report.gpa == MMIO_SENTINEL_GPA ==>
              RamProbe(vm).Equal?
    ensures e.report == Finished <==> regs.Some? && regs.value.rax == RAX_SENTINEL && MemorySentinelsHold(vm)
    // the first failing memory check is the one reported, with its own address and value
    ensures regs.Some? && regs.value.rax == RAX_SENTINEL && !RamProbe(vm).Equal? ==>
              e.report == ProbeReport(RAM_SENTINEL_GPA, RamProbe(vm))
    ensures regs.Some? && regs.value.rax == RAX_SENTINEL && RamProbe(vm).Equal? && !MmioProbe(vm).Equal? ==>
              e.report == ProbeReport(MMIO_SENTINEL_GPA, MmioProbe(vm))
  {
    if regs.None? then Ending(FATAL_STATUS, RegsUnreadable)
    else if regs.value.rax != RAX_SENTINEL then Ending(0, WrongRax(regs.value.rax))
    else
      var atRam := RamProbe(vm);
      if !atRam.Equal? then Ending(0, ProbeReport(RAM_SENTINEL_GPA, atRam))
      else
        var atMmio := MmioProbe(vm);
        if !atMmio.Equal? then Ending(0, ProbeReport(MMIO_SENTINEL_GPA, atMmio))
        else
          assert PhysicalView(vm)[MMIO_SENTINEL_GPA..MMIO_SENTINEL_GPA + 1] == [PhysicalView(vm)[MMIO_SENTINEL_GPA]];
          Ending(0, Finished)
  }

  /** The guest left every sentinel in place: 42 in RAX and both memory sentinels. */
  predicate SentinelsHold(vm: Vm, regs: Option<Regs>)
    requires Valid(vm)
  {
    regs.Some? && regs.value.rax == RAX_SENTINEL && MemorySentinelsHold(vm)
  }

  /** The source's probe of the RAM sentinel, reading host bytes past the buffer if it straddles its end. */
  function RamProbeAsWritten(vm: Vm, afterMem: seq<u8>, afterMmio: seq<u8>): ProbeOutcome
    requires Valid(vm)
    requires |afterMem| >= MEMVAL_SIZE && |afterMmio| >= MEMVAL_SIZE
  {
    ProbeAsWritten(vm, RAM_SENTINEL_GPA, RAM_SENTINEL_SIZE, RAM_SENTINEL, afterMem, afterMmio)
  }

  /** The source's probe of the MMIO sentinel. */
  function MmioProbeAsWritten(vm: Vm, afterMem: seq<u8>, afterMmio: seq<u8>): ProbeOutcome
    requires Valid(vm)
    requires |afterMem| >= MEMVAL_SIZE && |afterMmio| >= MEMVAL_SIZE
  {
    ProbeAsWritten(vm, MMIO_SENTINEL_GPA, MMIO_SENTINEL_SIZE, MMIO_SENTINEL, afterMem, afterMmio)
  }

  /**
    The check phase with the source's own probe, which reads `data_size`
    bytes past the start address from the host buffer even when they run
    past its end; `afterMem` and `afterMmio` stand for the host bytes that
    follow the RAM and MMIO buffers.
   */
  function FinalCheckAsWritten(vm: Vm, regs: Option<Regs>, afterMem: seq<u8>, afterMmio: seq<u8>): (e: Ending)
    requires Valid(vm)
    requires |afterMem| >= MEMVAL_SIZE && |afterMmio| >= MEMVAL_SIZE
    ensures e.status == 1 <==> regs.None?
    ensures e.report == RegsUnreadable <==> regs.None?
    ensures e.report.WrongRax? <==> regs.Some? && regs.value.rax != RAX_SENTINEL
    ensures e.report.WrongRax? ==> e.report.rax == regs.value.rax
    ensures e.status == 0 <==> regs.Some?
    ensures e.report.OutsideGuestMemory? ==> e.report.gpa >= |vm.mem| + |vm.mmio|
    ensures e.report == Finished <==>
              && regs.Some? && regs.value.rax == RAX_SENTINEL
              && RamProbeAsWritten(vm, afterMem, afterMmio).Equal?
              && MmioProbeAsWritten(vm, afterMem, afterMmio).Equal?
    // the first failing memory check is the one reported, with its own address and value
    ensures regs.Some? && regs.value.rax == RAX_SENTINEL && !RamProbeAsWritten(vm, afterMem, afterMmio).Equal? ==>
              e.report == ProbeReport(RAM_SENTINEL_GPA, RamProbeAsWritten(vm, afterMem, afterMmio))
    ensures regs.Some? && regs.value.rax == RAX_SENTINEL && RamProbeAsWritten(vm, afterMem, afterMmio).Equal?
              && !MmioProbeAsWritten(vm, afterMem, afterMmio).Equal? ==>
              e.report == ProbeReport(MMIO_SENTINEL_GPA, MmioProbeAsWritten(vm, afterMem, afterMmio))
  {
    if regs.None? then Ending(FATAL_STATUS, RegsUnreadable)
    else if regs.value.rax != RAX_SENTINEL then Ending(0, WrongRax(regs.value.rax))
    else
      var atRam := RamProbeAsWritten(vm, afterMem, afterMmio);
      if !atRam.Equal? then Ending(0, ProbeReport(RAM_SENTINEL_GPA, atRam))
      else
        var atMmio := MmioProbeAsWritten(vm, afterMem, afterMmio);
        if !atMmio.Equal? then Ending(0, ProbeReport(MMIO_SENTINEL_GPA, atMmio))
        else Ending(0, Finished)
  }

  /**
    The check phase as written and `FinalCheck` agree whenever the 4-byte
    RAM sentinel lies wholly inside one region (RAM of at least 0x404 bytes,
    say); the one-byte MMIO probe cannot straddle a region's end.
   */
  lemma FinalCheckAgreesAsWritten(vm: Vm, regs: Option<Regs>, afterMem: seq<u8>, afterMmio: seq<u8>)
    requires Valid(vm)
    requires |afterMem| >= MEMVAL_SIZE && |afterMmio| >= MEMVAL_SIZE
    requires Fits(vm, RAM_SENTINEL_GPA, RAM_SENTINEL_SIZE)
    ensures FinalCheckAsWritten(vm, regs, afterMem, afterMmio) == FinalCheck(vm, regs)
  {
    AsWrittenAgreesWhenFits(vm, RAM_SENTINEL_GPA, RAM_SENTINEL_SIZE, RAM_SENTINEL, afterMem, afterMmio);
    if Fits(vm, MMIO_SENTINEL_GPA, MMIO_SENTINEL_SIZE) {
      AsWrittenAgreesWhenFits(vm, MMIO_SENTINEL_GPA, MMIO_SENTINEL_SIZE, MMIO_SENTINEL, afterMem, afterMmio);
    }
  }

  /** Result of the run-and-check part of `main`: ended, or still running when the answers ran out. */
  datatype Outcome = Ended(ending: Ending, output: seq<u8>) | StillRunning(output: seq<u8>)

  /**
    Lines 133-200 of `main`: the dispatch loop along the KVM_RUN answers
    `oracle`, then, if the guest halted, the final check on `regsAtHalt` and
    `vmAtHalt` (the guest's registers and memory when it halted). The guest's
    echoed output is the data of the OUT exits before the loop stops; the
    status is 1 exactly when the loop failed or the registers could not be
    read, and the sentinels are only ever judged after a HLT exit.
   */
  function RunVmm(vmAtHalt: Vm, oracle: seq<Answer>, regsAtHalt: Option<Regs>): (outcome: Outcome)
    requires Valid(vmAtHalt)
    ensures outcome.StillRunning? <==> FirstStop(oracle) == |oracle|
    ensures outcome.Ended? ==> (outcome.ending.status == 1 <==> outcome.ending.report.RunFatal? || outcome.ending.report == RegsUnreadable)
    ensures outcome.Ended? && !outcome.ending.report.RunFatal? ==> HaltsFirst(oracle)
    ensures outcome == Ended(Ending(0, Finished), outcome.output) <==> HaltsFirst(oracle) && SentinelsHold(vmAtHalt, regsAtHalt)
    // after a HLT exit the ending is the check phase's; before one, only the loop can end the process
    ensures HaltsFirst(oracle) ==> outcome.Ended? && outcome.ending == FinalCheck(vmAtHalt, regsAtHalt)
    ensures outcome.Ended? && !HaltsFirst(oracle) ==> outcome.ending.report.RunFatal?
    // a loop failure reports the cause of the first stopping answer
    ensures FirstStop(oracle) < |oracle| && oracle[FirstStop(oracle)].rc != 0 ==>
              outcome.Ended? && outcome.ending.report == RunFatal(RunRejected(oracle[FirstStop(oracle)].rc))
    ensures FirstStop(oracle) < |oracle| && oracle[FirstStop(oracle)].rc == 0
              && oracle[FirstStop(oracle)].record.exitReason == KVM_EXIT_FAIL_ENTRY ==>
              outcome.Ended? && outcome.ending.report == RunFatal(EntryFailed(oracle[FirstStop(oracle)].record.hardwareEntryFailureReason))
    ensures FirstStop(oracle) < |oracle| && oracle[FirstStop(oracle)].rc == 0
              && oracle[FirstStop(oracle)].record.exitReason !in {KVM_EXIT_HLT, KVM_EXIT_FAIL_ENTRY} ==>
              outcome.Ended? && outcome.ending.report == RunFatal(UnexpectedExit(oracle[FirstStop(oracle)].record.exitReason))
  {
    var t := Run(Start, oracle);
    match t.phase
    case Running => StillRunning(t.output)
    case Fatal(cause) => Ended(Ending(FATAL_STATUS, RunFatal(cause)), t.output)
    case Checking => Ended(FinalCheck(vmAtHalt, regsAtHalt), t.output)
  }

  /** What the host echoes is the data of the OUT exits before the loop's first stopping answer. */
  lemma RunVmmEchoes(vmAtHalt: Vm, oracle: seq<Answer>, regsAtHalt: Option<Regs>)
    requires Valid(vmAtHalt)
    ensures RunVmm(vmAtHalt, oracle, regsAtHalt).output == Echoed(oracle[..FirstStop(oracle)])
  {
    var t := Run(Start, oracle);
    assert t.output == [] + Echoed(oracle[..FirstStop(oracle)]);
  }

  /**
    After a HLT exit whose RAM sentinel lies inside one region, the run ends
    exactly as the check phase with the source's own probe does, whatever
    the host bytes past the buffers.
   */
  lemma RunVmmAsWritten(vmAtHalt: Vm, oracle: seq<Answer>, regsAtHalt: Option<Regs>,
                        afterMem: seq<u8>, afterMmio: seq<u8>)
    requires Valid(vmAtHalt)
    requires |afterMem| >= MEMVAL_SIZE && |afterMmio| >= MEMVAL_SIZE
    requires HaltsFirst(oracle)
    requires Fits(vmAtHalt, RAM_SENTINEL_GPA, RAM_SENTINEL_SIZE)
    ensures RunVmm(vmAtHalt, oracle, regsAtHalt).Ended?
    ensures RunVmm(vmAtHalt, oracle, regsAtHalt).ending == FinalCheckAsWritten(vmAtHalt, regsAtHalt, afterMem, afterMmio)
  {
    FinalCheckAgreesAsWritten(vmAtHalt, regsAtHalt, afterMem, afterMmio);
  }

  /**
    Scenario: a guest that writes `bs` to the I/O port one byte at a time,
    leaves 42 in RAX and the sentinels in memory, and halts. The host echoes
    exactly `bs` and finishes with status 0.
   */
  lemma EchoThenFinish(bs: seq<u8>, port: u16, vm: Vm, regs: Regs)
    requires Valid(vm)
    requires regs.rax == RAX_SENTINEL
    requires MemorySentinelsHold(vm)
    ensures RunVmm(vm, OutExits(bs, port) + [HltExit], Some(regs)) == Ended(Ending(0, Finished), bs)
  {
    EchoThenHalt(bs, port);
  }
}

=== FILE: words.dfy ===
/**
  Fixed-width unsigned integers as the C host code uses them, the conversion
  of a signed `int` into `uint64_t`, and the little-endian byte order in which
  an x86 host reads guest memory into a 64-bit variable.
 */
module Words {

  const TWO_TO_THE_64: int := 0x1_0000_0000_0000_0000

  type u8 = x: int | 0 <= x < 0x100
  type u16 = x: int | 0 <= x < 0x1_0000
  type u32 = x: int | 0 <= x < 0x1_0000_0000
  type u64 = x: int | 0 <= x < 0x1_0000_0000_0000_0000

  /** C's conversion of any integer to `uint64_t`: reduction modulo 2^64. */
  function AsU64(x: int): (r: u64)
    ensures 0 <= x < TWO_TO_THE_64 ==> r == x
    ensures -TWO_TO_THE_64 <= x < 0 ==> r == x + TWO_TO_THE_64
  {
    x % TWO_TO_THE_64
  }

  /** `a - b` on `uint64_t` operands: wraps around when `b > a`. */
  function SubU64(a: u64, b: u64): (d: u64)
    ensures b <= a ==> d == a - b
    ensures a < b ==> d == a - b + TWO_TO_THE_64 && d >= TWO_TO_THE_64 - b
  {
    AsU64(a - b)
  }

  function Pow256(n: nat): (p: nat)
    ensures p >= 1
  {
    if n == 0 then 1 else 256 * Pow256(n - 1)
  }

  lemma Pow256Eight()
    ensures Pow256(8) == TWO_TO_THE_64
  {
  }

  lemma {:induction false} Pow256Monotonic(m: nat, n: nat)
    requires m <= n
    ensures Pow256(m) <= Pow256(n)
  {
    if m < n {
      Pow256Monotonic(m, n - 1);
    }
  }

  /** The unsigned integer whose little-endian encoding is `bs` (byte 0 least significant). */
  function LeValue(bs: seq<u8>): (v: nat)
    ensures v < Pow256(|bs|)
  {
    if |bs| == 0 then 0 else bs[0] + 256 * LeValue(bs[1..])
  }

  /** The `n`-byte little-endian encoding of `v`. */
  function LeBytes(v: nat, n: nat): (bs: seq<u8>)
    requires v < Pow256(n)
    ensures |bs| == n
    ensures n > 0 ==> bs[0] == v % 256
  {
    if n == 0 then [] else [v % 256] + LeBytes(v / 256, n - 1)
  }

  function Zeros(n: nat): (z: seq<u8>)
    ensures |z| == n
    ensures forall i :: 0 <= i < n ==> z[i] == 0
  {
    if n == 0 then [] else [0] + Zeros(n - 1)
  }

  /** Decoding an encoding gives back the value. */
  lemma {:induction false} LeValueOfLeBytes(v: nat, n: nat)
    requires v < Pow256(n)
    ensures LeValue(LeBytes(v, n)) == v
  {
    if n > 0 {
      var bs := LeBytes(v, n);
      assert bs[1..] == LeBytes(v / 256, n - 1);
      LeValueOfLeBytes(v / 256, n - 1);
    }
  }

  /** Encoding a decoded value at the same width gives back the bytes. */
  lemma {:induction false} LeBytesOfLeValue(bs: seq<u8>)
    ensures LeBytes(LeValue(bs), |bs|) == bs
  {
    if |bs| > 0 {
      var v := LeValue(bs);
      assert v % 256 == bs[0];
      assert v / 256 == LeValue(bs[1..]);
      LeBytesOfLeValue(bs[1..]);
    }
  }

  /**
    Appending zero bytes above the most significant byte does not change the
    value: a copy of `k` bytes into a zeroed 8-byte variable reads back as the
    zero-extension of those `k` bytes.
   */
  lemma {:induction false} LeValueZeroExtend(bs: seq<u8>, n: nat)
    ensures LeValue(bs + Zeros(n)) == LeValue(bs)
  {
    if |bs| == 0 {
      LeValueOfZeros(n);
      assert bs + Zeros(n) == Zeros(n);
    } else {
      assert (bs + Zeros(n))[1..] == bs[1..] + Zeros(n);
      LeValueZeroExtend(bs[1..], n);
    }
  }

  lemma {:induction false} LeValueOfZeros(n: nat)
    ensures LeValue(Zeros(n)) == 0
  {
    if n > 0 {
      assert Zeros(n)[1..] == Zeros(n - 1);
      LeValueOfZeros(n - 1);
    }
  }

  /** Two byte strings of one length with the same value are equal: the encoding is unique. */
  lemma LeValueInjective(a: seq<u8>, b: seq<u8>)
    requires |a| == |b|
    requires LeValue(a) == LeValue(b)
    ensures a == b
  {
    LeBytesOfLeValue(a);
    LeBytesOfLeValue(b);
  }
}
